=== FILE: README.md ===
# Rain monitor — Dafny model of the forecast analysis

`rain_monitor.py` fetches an hourly forecast (precipitation probability and
amount) from the Open-Meteo service for a configured city, looks at the three
hours starting with the current one, and mails a notice when some hour's
probability reaches the threshold (50 %) or when testing mode forces a mail.

This project models the decision logic of that script as pure functions over
immutable values and proves what it computes:

- `Cities` — the two-city table, the default city, the settings the script
  keeps as constants (city, threshold, testing mode), the city fallback of the
  fetch and the city label of the analysis.
- `Forecast` — the decoded response (every key optional), the shape check
  (`hourly` present, `precipitation_probability` inside it), and one fetch
  with the HTTP exchange passed in as a function from URL to response.
- `Clock` — a clock reading and the `%Y-%m-%dT%H:00` / `%Y-%m-%d %H:%M:%S`
  renderings of it; the 13-character hour prefix identifies the hour exactly.
- `HourIndex` — the current-hour lookup: first timestamp with the prefix,
  else the hour of day, else 0 when the timestamps cannot be read.
- `Analysis` — the three-iteration loop exactly as written (`Steps`),
  a closed-form reference (window of min(3, max(0, L − i)) entries, running
  maximum from 0, exact total, alert rule) and the proof that the loop
  computes the reference; `None` for every way the analysis raises.
- `Notify` — the choice between a test notice and a rain alert and the parts
  of the message.
- `Monitor` — the run: fetch, analyze, send only on a successful analysis
  whose alert flag is set.
- `Text`, `Wrappers` — prefix test, decimal rendering of integers (with its
  parse-back round trip), zero padding, `Option` and `Result`.

Probabilities are `int`; precipitation amounts are `real`, so totals are exact.
Clock readings and the forecast service are parameters.

Three behaviours of the code worth noting, all modelled as written:

- The shape check tests only `hourly` and `precipitation_probability`; a
  response without `precipitation` (or `time`) passes the fetch and then makes
  the analysis return `None` (`Monitor.MissingPrecipitationStopsRun`).
- The alert flag needs at least one hour in the window: with an empty window
  it stays false even in testing mode, so "max ≥ threshold or testing mode"
  is not the rule (`Analysis.EmptyWindowNeverAlerts`).
- An unknown city key is fetched as the default city but the summary is
  labelled with the unknown key itself (`Cities.UnknownKeyFetchedAsDefaultLabelledAsKey`).

## Model

| member | source | states |
|---|---|---|
| `Cities.ResolveCity` | rain_monitor.py:92-94 | the key used for the request is always in the table; a known key is kept, an unknown one becomes the default city |
| `Cities.CityLabel` | rain_monitor.py:181 | a known key is labelled with the table's name, an unknown key with itself |
| `Cities.UnknownKeyFetchedAsDefaultLabelledAsKey` | rain_monitor.py:181 | for every unknown key the fetch goes to the default city while the summary's city name is the key itself, which differs from the default city's name unless the key spells that name |
| `Forecast.Validate` | rain_monitor.py:106-116 | a response is accepted iff `hourly` is present with `precipitation_probability` inside it, and is then passed through unchanged; missing `hourly` is the format error, missing probabilities the second error |
| `Forecast.Fetch` | rain_monitor.py:92-116 | the fetch succeeds iff the service replies for the resolved city's URL with the checked shape, and then returns that reply; a transport failure becomes `Transport` with its message, and only then; `InvalidFormat` iff the reply lacks `hourly`; `MissingProbability` iff it has `hourly` without probabilities |
| `Forecast.UnknownKeyFetchesDefault` | rain_monitor.py:92-96 | fetching an unknown key is the same as fetching the default city |
| `Clock.HourPrefix` | rain_monitor.py:146-152 | the prefix is the first 13 characters of the full hour stamp, `YYYY-MM-DDTHH`, and year, month, day and hour read back from their positions |
| `Clock.CheckStamp` | rain_monitor.py:190 | the check time is 19 characters `YYYY-MM-DD HH:MM:SS`, with every field of the clock reading readable back from its position |
| `Clock.HourPrefixIdentifiesHour` | rain_monitor.py:146-152 | two clock readings have the same hour prefix iff they share year, month, day and hour |
| `Clock.StampMatchesPrefix` | rain_monitor.py:150-152 | a forecast timestamp of the form `YYYY-MM-DDTHH:00` starts with the prefix of "now" iff it denotes the same hour |
| `HourIndex.FirstMatchFrom` | rain_monitor.py:150-154 | the result is the first position from `i` whose timestamp starts with the prefix, no earlier position matches, and `None` exactly when no position matches |
| `HourIndex.CurrentHourIndex` | rain_monitor.py:144-163 | the index is 0 when `hourly` or `time` is missing; otherwise either the first timestamp matching the hour prefix, or, when none matches, the hour of day (not clamped to the series length) |
| `HourIndex.IndexOfStampedSeries` | rain_monitor.py:145-159 | for hourly stamps of a list of readings, the index is the first reading within the current hour, or the hour of day when there is none |
| `Analysis.ExtractSeries` | rain_monitor.py:184-186 | the three arrays are read iff `hourly`, `time`, `precipitation_probability` and `precipitation` are all present, and are passed through unchanged |
| `Analysis.WindowSize` | rain_monitor.py:198-201 | the window length is at most 3, zero iff the start is past the series, and otherwise min(3, L − start) |
| `Analysis.WindowPrefix` | rain_monitor.py:198-212 | entry k of the window is (times, probability, precipitation) at position start + k, in order |
| `Analysis.MaxProbability` | rain_monitor.py:192-213 | the running maximum is at least 0, at least every included probability, and either 0 or one of the included probabilities |
| `Analysis.AnyAtLeastAppend` | rain_monitor.py:218-219 | after one more hour, some hour reaches the threshold iff one did before or the new hour does |
| `Analysis.TallyOfAppend` | rain_monitor.py:212-219 | one recording iteration turns the reference tally of the first hours into that of the first hours plus the new one |
| `Analysis.StepRecordsHour` | rain_monitor.py:201-219 | an iteration at an in-bounds position with a probability and a precipitation appends that hour, folds its probability into the maximum, adds its amount and sets the flag if it reaches the threshold or testing mode is on |
| `Analysis.TallyOfNextPrefix` | rain_monitor.py:212-219 | the reference tally of the first i + 1 window hours is that of the first i with hour i folded in |
| `Analysis.StepRecords` | rain_monitor.py:201-219 | an in-bounds iteration whose probability and precipitation exist extends the recorded prefix of the window by exactly one entry |
| `Analysis.StepsFollowReference` | rain_monitor.py:197-221 | from any iteration whose accumulator matches the reference for the hours seen so far, the remaining loop yields the reference summary, or `None` when some in-bounds hour lacks a probability or precipitation |
| `Analysis.LoopMatchesReference` | rain_monitor.py:188-221 | the loop started from an empty list, maximum 0, total 0 and no alert computes exactly the reference result |
| `Analysis.AnalyzeRainProbability` | rain_monitor.py:179-231 | the analysis is `None` iff a needed key is missing or an in-window hour lacks a probability or precipitation; otherwise its hours are the window, its maximum and total are those of the window, its flag is the alert rule, its city the label and its check time the second clock reading |
| `Analysis.SummaryContents` | rain_monitor.py:198-219 | a summary has min(3, max(0, L − i)) hours copied in order from position i; its maximum is 0 or an included probability and bounds them all; the flag is set iff there is an hour and some hour reaches the threshold or testing mode is on |
| `Analysis.TotalPrecipitationAppend` | rain_monitor.py:193-214 | the running total of a concatenation is the sum of the two totals |
| `Analysis.TotalPrecipitationNonNegative` | rain_monitor.py:214 | non-negative amounts give a non-negative total |
| `Analysis.AlertMatchesMaximum` | rain_monitor.py:213-219 | for a positive threshold the alert rule equals "at least one hour and (maximum ≥ threshold or testing mode)" |
| `Analysis.EmptyWindowNeverAlerts` | rain_monitor.py:192-221 | when the index is past the series the analysis succeeds with no hours, maximum 0, total 0 and no alert, whatever the testing mode |
| `Text.IntToStringRoundTrip` | rain_monitor.py:253-256 | the decimal rendering `str` gives any integer, as embedded in the subject, parses back to that integer |
| `Notify.Subject` | rain_monitor.py:252-256 | the subject starts with `[TEST]` iff it is the test variant, contains the city, and ends with ` for <city> - <maximum>% Probability` |
| `Notify.SubjectShowsMaximum` | rain_monitor.py:253-256 | the characters between the subject's closing ` - ` and `% Probability` parse back as exactly the maximum probability |
| `Notify.Heading` | rain_monitor.py:259 | the heading starts with `Rain Monitor Test` for a test notice and `Rain Alert` for an alert, and contains the city |
| `Notify.Reason` | rain_monitor.py:252-257 | a test notice carries the fixed test sentence; an alert's reason contains ` is <threshold>% or greater`, the threshold bounded by a space on the left |
| `Notify.Compose` | rain_monitor.py:252-277 | the message is the test variant iff testing mode is on and the maximum is below the threshold; subject, heading and reason are each the test or the alert form according to the variant; subject and heading embed the city, the subject ends with ` for <city> - <maximum>% Probability` and an alert's reason contains ` is <threshold>% or greater`; hours and figures are copied from the summary |
| `Notify.VariantMatchesCause` | rain_monitor.py:252-257 | for a raised alert, a rain alert means the maximum reached the threshold, and a test notice means testing mode is on and every hour stayed below the threshold |
| `Monitor.Decide` | rain_monitor.py:305-317 | the run fails its analysis iff the analysis is `None`, sends iff the analysis exists with the flag set (with the composed message), and otherwise ends with no alert |
| `Monitor.Run` | rain_monitor.py:296-323 | a run ends in the fetch error iff the fetch fails; its analysis fails iff the fetch succeeds but a needed array is missing or an in-window hour lacks a probability or precipitation; a message is sent iff the fetch succeeds, the window is readable and the alert rule holds on it; a sent or no-alert run carries exactly the analysis of the fetched reply, and the message is the one composed for that summary |
| `Monitor.SentOnlyWithCause` | rain_monitor.py:305-315 | a message is sent only after a successful fetch, for a window of at least one hour in which some hour reached the threshold or testing mode is on |
| `Monitor.DefaultsAlertAtFiftyPercent` | rain_monitor.py:305-315 | with the shipped settings every message is a rain alert and some hour reached 50 % |
| `Monitor.MissingPrecipitationStopsRun` | rain_monitor.py:106-116 | for any settings, every reply with probabilities but without `precipitation` passes the fetch unchanged, yet the run ends in a failed analysis with nothing sent |
| `Monitor.LastHourOfSeriesAlerts` | rain_monitor.py:198-221 | with the current hour at position 23 of 24, the window is that single hour, and at 60 % it sends a rain alert |

## Left out

- The HTTP request, `raise_for_status`, the 30-second timeout and JSON decoding (rain_monitor.py:102-104): network I/O; the reply for each URL is the `get` parameter of `Forecast.Fetch`, whose failures are transport messages.
- The retry decorators (15 attempts, 15 seconds apart) on the fetch and on the mail send (rain_monitor.py:72-76, 234-238): a third-party library and wall-clock sleeping; a fetch failure is modelled by `FetchFailed` carrying the last attempt's error, which escapes the run wrapped in tenacity's `RetryError` (no `reraise=True` is given).
- Mail delivery through the SMTP session, the sender credentials and the fixed recipient (rain_monitor.py:281-283, 42-44): a foreign call and secrets; `Monitor.Run` ends at the message handed to delivery, and delivery errors are not modelled.
- Logging setup and every log call (rain_monitor.py:47-69), including the two log lines `main` chooses between before sending (rain_monitor.py:311-314), which use the same condition as `Notify.ChooseVariant`.
- The clock: `datetime.now()` is read twice, once for the hour lookup and once for the check time, and both readings are parameters. Years before 1000, whose `%Y` rendering is platform-dependent, and calendar validity of the day (e.g. 31 February) are not modelled; neither affects the lookup logic.
- The `%I:%M %p` rendering of each hour in the mail body (rain_monitor.py:266-267): library date formatting; the body is kept as its parts (hours, maximum, total, threshold, testing mode, reason). With it goes its failure path: a timestamp that `fromisoformat` rejects makes the send raise, be retried and finally make the run exit non-zero, whereas `Monitor.Run` reports `Sent` for such a summary.
- Floating-point precipitation: amounts are exact `real`s, so totals are exact sums rather than IEEE sums.
- JSON values of the wrong type (a `null` probability, which makes `max` raise and the analysis return `None`; a non-string timestamp, which makes the lookup return 0; `hourly` not being an object): the arrays are typed as integers, reals and strings.
- The process exit code: `Monitor.Outcome.FetchFailed` stands for the last attempt's error escaping `main` wrapped in `RetryError`, with a non-zero exit; the other outcomes for normal completion.

=== FILE: analysis.dfy ===
/** The forecast analyzer: the three-hour window after the current hour, its
    maximum probability, total precipitation and alert flag. */
module Analysis {
  import opened Wrappers
  import opened Clock
  import opened Cities
  import opened Forecast
  import opened HourIndex

  /** One entry of `hours_data`. Precipitation is in millimetres, exact. */
  datatype HourRecord = HourRecord(time: string, probability: int, precipitation: real)

  /** The analysis dictionary the analyzer returns. */
  datatype Summary = Summary(
    city: string,
    checkTime: string,
    hours: seq<HourRecord>,
    maxProbability: int,
    totalPrecipitation: real,
    alertTriggered: bool)

  /** The three parallel hourly arrays; nothing makes them equally long. */
  datatype Series = Series(times: seq<string>, probabilities: seq<int>, precipitations: seq<real>)

  /** The three arrays, or `None` when any key the analyzer reads is absent. */
  function ExtractSeries(data: Response): (r: Option<Series>)
    ensures r.Some? <==>
      data.hourly.Some? && data.hourly.value.time.Some? &&
      data.hourly.value.probability.Some? && data.hourly.value.precipitation.Some?
    ensures r.Some? ==>
      r.value == Series(data.hourly.value.time.value, data.hourly.value.probability.value,
                        data.hourly.value.precipitation.value)
  {
    match data.hourly
    case None => None
    case Some(h) =>
      if h.time.Some? && h.probability.Some? && h.precipitation.Some?
      then Some(Series(h.time.value, h.probability.value, h.precipitation.value))
      else None
  }

  function Max(a: int, b: int): int {
    if a >= b then a else b
  }

  // ---------------------------------------------------------------------
  // Reference definitions of the window and its aggregates
  // ---------------------------------------------------------------------

  /** Number of positions `start`, `start + 1`, `start + 2` below `length`. */
  function WindowSize(length: nat, start: nat): (n: nat)
    ensures n <= 3
    ensures n == 0 <==> start >= length
    ensures n > 0 ==> start + n <= length
    ensures n < 3 ==> start + n >= length
  {
    if start >= length then 0 else if length - start < 3 then length - start else 3
  }

  /** The `m` positions from `start` on exist in all three arrays. */
  predicate Covers(s: Series, start: nat, m: nat) {
    m == 0 || (start + m <= |s.times| && start + m <= |s.probabilities| && start + m <= |s.precipitations|)
  }

  /** Every window position is also a position of the other two arrays. */
  predicate Readable(s: Series, start: nat) {
    Covers(s, start, WindowSize(|s.times|, start))
  }

  /** The first `m` window entries, in order. */
  function WindowPrefix(s: Series, start: nat, m: nat): (w: seq<HourRecord>)
    requires Covers(s, start, m)
    ensures |w| == m
    ensures forall k :: 0 <= k < m ==>
      w[k] == HourRecord(s.times[start + k], s.probabilities[start + k], s.precipitations[start + k])
  {
    seq(m, k requires 0 <= k < m => HourRecord(s.times[start + k], s.probabilities[start + k], s.precipitations[start + k]))
  }

  function Window(s: Series, start: nat): seq<HourRecord>
    requires Readable(s, start)
  {
    WindowPrefix(s, start, WindowSize(|s.times|, start))
  }

  /** Running maximum of the probabilities, starting from 0. */
  function MaxProbability(hours: seq<HourRecord>): (m: int)
    ensures m >= 0
    ensures forall k :: 0 <= k < |hours| ==> hours[k].probability <= m
    ensures m == 0 || exists k :: 0 <= k < |hours| && hours[k].probability == m
  {
    if |hours| == 0 then 0
    else Max(MaxProbability(hours[..|hours| - 1]), hours[|hours| - 1].probability)
  }

  /** Running total of the precipitation amounts, starting from 0. */
  function TotalPrecipitation(hours: seq<HourRecord>): real {
    if |hours| == 0 then 0.0
    else TotalPrecipitation(hours[..|hours| - 1]) + hours[|hours| - 1].precipitation
  }

  /** Some entry's probability reaches the threshold. */
  predicate AnyAtLeast(hours: seq<HourRecord>, threshold: int) {
    exists k :: 0 <= k < |hours| && hours[k].probability >= threshold
  }

  /** The alert rule: at least one entry, and either one reaches the
      threshold or testing mode is on. */
  predicate AlertRule(hours: seq<HourRecord>, settings: Settings) {
    |hours| > 0 && (AnyAtLeast(hours, settings.threshold) || settings.testingMode)
  }

  // ---------------------------------------------------------------------
  // The loop as the script runs it
  // ---------------------------------------------------------------------

  /** The accumulator of the loop: `hours_data`, `max_probability`,
      `total_precipitation`, `alert_triggered`. */
  datatype Tally = Tally(hours: seq<HourRecord>, maxProbability: int, total: real, alert: bool)

  const Initial: Tally := Tally([], 0, 0.0, false)

  /** Iterations `i` to 2 of the loop over offsets 0, 1, 2. An in-bounds
      timestamp whose probability or precipitation is missing raises, which
      the analyzer turns into `None`. */
  function Steps(s: Series, start: nat, i: nat, acc: Tally, settings: Settings): Option<Tally>
    requires i <= 3
    decreases 3 - i
  {
    if i == 3 then Some(acc)
    else
      var k := start + i;
      if k < |s.times| then
        if k < |s.probabilities| && k < |s.precipitations| then
          var p := s.probabilities[k];
          var next := Tally(
            acc.hours + [HourRecord(s.times[k], p, s.precipitations[k])],
            Max(acc.maxProbability, p),
            acc.total + s.precipitations[k],
            acc.alert || p >= settings.threshold || settings.testingMode);
          Steps(s, start, i + 1, next, settings)
        else None
      else Steps(s, start, i + 1, acc, settings)
  }

  /** The tally the reference definitions give for a list of entries. */
  function TallyOf(hours: seq<HourRecord>, settings: Settings): Tally {
    Tally(hours, MaxProbability(hours), TotalPrecipitation(hours), AlertRule(hours, settings))
  }

  lemma AnyAtLeastAppend(hours: seq<HourRecord>, h: HourRecord, threshold: int)
    ensures AnyAtLeast(hours + [h], threshold) <==> AnyAtLeast(hours, threshold) || h.probability >= threshold
  {
    var e := hours + [h];
    if AnyAtLeast(hours, threshold) {
      var k :| 0 <= k < |hours| && hours[k].probability >= threshold;
      assert e[k] == hours[k];
    }
    if h.probability >= threshold {
      assert e[|hours|] == h;
    }
    if AnyAtLeast(e, threshold) {
      var k :| 0 <= k < |e| && e[k].probability >= threshold;
      if k < |hours| {
        assert e[k] == hours[k];
      }
    }
  }

  /** Adding one entry to a tally the way one loop iteration does gives the
      reference tally of the longer list. */
  lemma TallyOfAppend(w: seq<HourRecord>, h: HourRecord, settings: Settings)
    ensures TallyOf(w + [h], settings) == Tally(
      w + [h],
      Max(MaxProbability(w), h.probability),
      TotalPrecipitation(w) + h.precipitation,
      AlertRule(w, settings) || h.probability >= settings.threshold || settings.testingMode)
  {
    assert (w + [h])[..|w|] == w;
    AnyAtLeastAppend(w, h, settings.threshold);
  }

  /** How many window entries the loop has recorded before iteration `i`. */
  function Seen(s: Series, start: nat, i: nat): nat {
    var n := WindowSize(|s.times|, start);
    if i < n then i else n
  }

  /** One iteration over an in-bounds position whose probability and
      precipitation exist appends that hour and folds it into the maximum,
      the total and the flag. */
  lemma StepRecordsHour(s: Series, start: nat, i: nat, acc: Tally, settings: Settings)
    requires i < 3
    requires start + i < |s.times| && start + i < |s.probabilities| && start + i < |s.precipitations|
    ensures var k := start + i;
      var p := s.probabilities[k];
      Steps(s, start, i, acc, settings) ==
      Steps(s, start, i + 1,
            Tally(acc.hours + [HourRecord(s.times[k], p, s.precipitations[k])], Max(acc.maxProbability, p),
                  acc.total + s.precipitations[k], acc.alert || p >= settings.threshold || settings.testingMode),
            settings)
  {
  }

  /** The reference tally of the first `i + 1` window entries is the
      tally of the first `i` with entry `i` folded in. */
  lemma TallyOfNextPrefix(s: Series, start: nat, i: nat, settings: Settings)
    requires start + i < |s.times| && start + i < |s.probabilities| && start + i < |s.precipitations|
    ensures Covers(s, start, i) && Covers(s, start, i + 1)
    ensures var k := start + i;
      var p := s.probabilities[k];
      var acc := TallyOf(WindowPrefix(s, start, i), settings);
      TallyOf(WindowPrefix(s, start, i + 1), settings) ==
      Tally(acc.hours + [HourRecord(s.times[k], p, s.precipitations[k])], Max(acc.maxProbability, p),
            acc.total + s.precipitations[k], acc.alert || p >= settings.threshold || settings.testingMode)
  {
    var k := start + i;
    var w := WindowPrefix(s, start, i);
    var h := HourRecord(s.times[k], s.probabilities[k], s.precipitations[k]);
    assert WindowPrefix(s, start, i + 1) == w + [h];
    TallyOfAppend(w, h, settings);
  }

  /** One iteration that records an entry moves the accumulator from the
      reference tally of the first `i` window entries to that of `i + 1`. */
  lemma StepRecords(s: Series, start: nat, i: nat, settings: Settings)
    requires i < 3
    requires start + i < |s.times| && start + i < |s.probabilities| && start + i < |s.precipitations|
    ensures Covers(s, start, i) && Covers(s, start, i + 1)
    ensures Steps(s, start, i, TallyOf(WindowPrefix(s, start, i), settings), settings) ==
      Steps(s, start, i + 1, TallyOf(WindowPrefix(s, start, i + 1), settings), settings)
  {
    StepRecordsHour(s, start, i, TallyOf(WindowPrefix(s, start, i), settings), settings);
    TallyOfNextPrefix(s, start, i, settings);
  }

  /** Loop invariant: before iteration `i`, the accumulator is the reference
      tally of the window entries seen so far, and the rest of the loop ends
      at the reference result. */
  lemma {:induction false} StepsFollowReference(s: Series, start: nat, i: nat, settings: Settings)
    requires i <= 3
    requires Covers(s, start, Seen(s, start, i))
    ensures Steps(s, start, i, TallyOf(WindowPrefix(s, start, Seen(s, start, i)), settings), settings) ==
      if Readable(s, start) then Some(TallyOf(Window(s, start), settings)) else None
    decreases 3 - i
  {
    var n := WindowSize(|s.times|, start);
    var k := start + i;
    if i == 3 {
      assert Seen(s, start, i) == n;
    } else if k >= |s.times| {
      assert Seen(s, start, i + 1) == Seen(s, start, i) == n;
      StepsFollowReference(s, start, i + 1, settings);
    } else if k < |s.probabilities| && k < |s.precipitations| {
      assert Seen(s, start, i) == i && Seen(s, start, i + 1) == i + 1;
      StepRecords(s, start, i, settings);
      StepsFollowReference(s, start, i + 1, settings);
    } else {
      assert Seen(s, start, i) == i;
      assert !Readable(s, start);
    }
  }

  /** The loop, run from the start, computes the reference result. */
  lemma LoopMatchesReference(s: Series, start: nat, settings: Settings)
    ensures Steps(s, start, 0, Initial, settings) ==
      if Readable(s, start) then Some(TallyOf(Window(s, start), settings)) else None
  {
    assert Seen(s, start, 0) == 0;
    assert TallyOf(WindowPrefix(s, start, 0), settings) == Initial;
    StepsFollowReference(s, start, 0, settings);
  }

  // ---------------------------------------------------------------------
  // The analyzer
  // ---------------------------------------------------------------------

  /** Analysis of a response. `now` is the clock reading the hour lookup
      uses and `checkNow` the one shown as check time (the script reads the
      clock twice). `None` is the script's "analysis failed". */
  function AnalyzeRainProbability(data: Response, key: string, now: DateTime, checkNow: DateTime, settings: Settings): (r: Option<Summary>)
    ensures r.Some? <==>
      ExtractSeries(data).Some? && Readable(ExtractSeries(data).value, CurrentHourIndex(data, now))
    ensures r.Some? ==>
      var a := r.value;
      && a.city == CityLabel(key)
      && a.checkTime == CheckStamp(checkNow)
      && a.hours == Window(ExtractSeries(data).value, CurrentHourIndex(data, now))
      && a.maxProbability == MaxProbability(a.hours)
      && a.totalPrecipitation == TotalPrecipitation(a.hours)
      && a.alertTriggered == AlertRule(a.hours, settings)
  {
    var start := CurrentHourIndex(data, now);
    match ExtractSeries(data)
    case None => None
    case Some(s) =>
      LoopMatchesReference(s, start, settings);
      match Steps(s, start, 0, Initial, settings)
      case None => None
      case Some(t) => Some(Summary(CityLabel(key), CheckStamp(checkNow), t.hours, t.maxProbability, t.total, t.alert))
  }

  /** The summary spelled out: min(3, max(0, L - i)) entries copied in order
      from position i of the arrays, the maximum of 0 and their
      probabilities, and the alert flag. */
  lemma SummaryContents(data: Response, key: string, now: DateTime, checkNow: DateTime, settings: Settings)
    ensures var r := AnalyzeRainProbability(data, key, now, checkNow, settings);
      r.Some? ==>
      var s := ExtractSeries(data).value;
      var start := CurrentHourIndex(data, now);
      var a := r.value;
      && |a.hours| == WindowSize(|s.times|, start)
      && (forall k :: 0 <= k < |a.hours| ==>
            a.hours[k] == HourRecord(s.times[start + k], s.probabilities[start + k], s.precipitations[start + k]))
      && a.maxProbability >= 0
      && (forall k :: 0 <= k < |a.hours| ==> a.hours[k].probability <= a.maxProbability)
      && (a.maxProbability == 0 || exists k :: 0 <= k < |a.hours| && a.hours[k].probability == a.maxProbability)
      && (a.alertTriggered <==>
            |a.hours| > 0 && ((exists k :: 0 <= k < |a.hours| && a.hours[k].probability >= settings.threshold) || settings.testingMode))
  {
  }

  // ---------------------------------------------------------------------
  // Further properties of the aggregates
  // ---------------------------------------------------------------------

  /** Totals add up over concatenation, so the window total is the sum of
      the amounts in any split of the window. */
  lemma {:induction false} TotalPrecipitationAppend(a: seq<HourRecord>, b: seq<HourRecord>)
    ensures TotalPrecipitation(a + b) == TotalPrecipitation(a) + TotalPrecipitation(b)
    decreases |b|
  {
    if |b| > 0 {
      var b' := b[..|b| - 1];
      assert (a + b)[..|a + b| - 1] == a + b';
      TotalPrecipitationAppend(a, b');
    } else {
      assert a + b == a;
    }
  }

  /** With non-negative amounts the total is never negative. */
  lemma {:induction false} TotalPrecipitationNonNegative(hours: seq<HourRecord>)
    requires forall k :: 0 <= k < |hours| ==> hours[k].precipitation >= 0.0
    ensures TotalPrecipitation(hours) >= 0.0
  {
    if |hours| > 0 {
      TotalPrecipitationNonNegative(hours[..|hours| - 1]);
    }
  }

  /** When the threshold is positive, the alert rule says the same as
      comparing the maximum with the threshold. */
  lemma AlertMatchesMaximum(hours: seq<HourRecord>, settings: Settings)
    requires settings.threshold > 0
    ensures AlertRule(hours, settings) <==>
      |hours| > 0 && (MaxProbability(hours) >= settings.threshold || settings.testingMode)
  {
    var m := MaxProbability(hours);
    if m >= settings.threshold {
      var k :| 0 <= k < |hours| && hours[k].probability == m;
    }
  }

  /** An empty window never raises the alert, not even in testing mode. */
  lemma EmptyWindowNeverAlerts(data: Response, key: string, now: DateTime, checkNow: DateTime, settings: Settings)
    requires ExtractSeries(data).Some?
    requires CurrentHourIndex(data, now) >= |ExtractSeries(data).value.times|
    ensures var r := AnalyzeRainProbability(data, key, now, checkNow, settings);
      r.Some? && r.value.hours == [] && r.value.maxProbability == 0 &&
      r.value.totalPrecipitation == 0.0 && !r.value.alertTriggered
  {
  }
}

=== FILE: cities.dfy ===
/** The static location table and the monitor's settings. */
module Cities {

  datatype City = City(name: string, url: string)

  const Table: map<string, City> := map[
    "madison" := City("Madison", "https://api.open-meteo.com/v1/forecast?latitude=43.0901&longitude=-89.4359&hourly=precipitation_probability,precipitation&timezone=America%2FChicago&forecast_days=1"),
    "boston" := City("Boston", "https://api.open-meteo.com/v1/forecast?latitude=42.3745&longitude=-71.1178&hourly=precipitation_probability,precipitation&timezone=America%2FNew_York&forecast_days=1")
  ]

  const DefaultCity: string := "madison"

  /** The settings the script keeps as module constants: which city to watch,
      the alert threshold in percent, and the switch that sends mail
      regardless of probability. */
  datatype Settings = Settings(city: string, threshold: int, testingMode: bool)

  const Defaults: Settings := Settings(DefaultCity, 50, false)

  /** The key the forecast request uses: the given key when the table knows
      it, the default city otherwise. */
  function ResolveCity(key: string): (k: string)
    ensures k in Table
    ensures key in Table ==> k == key
    ensures key !in Table ==> k == DefaultCity
  {
    if key in Table then key else DefaultCity
  }

  /** The city name the analysis reports: the table's name for a known key,
      the key itself for an unknown one (no fallback to the default here). */
  function CityLabel(key: string): (name: string)
    ensures key in Table ==> name == Table[key].name
    ensures key !in Table ==> name == key
  {
    if key in Table then Table[key].name else key
  }

  /** The two lookups treat an unknown key differently: the request goes to
      the default city while the summary is labelled with the key itself,
      which differs from the default city's name unless the key happens to
      spell that name. */
  lemma UnknownKeyFetchedAsDefaultLabelledAsKey(key: string)
    requires key !in Table
    ensures ResolveCity(key) == DefaultCity
    ensures CityLabel(key) == key
    ensures key != Table[DefaultCity].name ==> CityLabel(key) != Table[ResolveCity(key)].name
  {
  }
}

=== FILE: clock.dfy ===
/** A reading of the wall clock and the two `strftime` renderings the
    monitor takes of it. The clock itself is not modelled: callers pass the
    reading in. */
module Clock {
  import opened Text

  /** Years `%Y` renders as exactly four digits. */
  type Year = y: int | 1000 <= y <= 9999 witness 1000
  type Month = m: int | 1 <= m <= 12 witness 1
  type Day = d: int | 1 <= d <= 31 witness 1
  type Hour = h: int | 0 <= h <= 23
  type Minute = m: int | 0 <= m <= 59
  type Second = s: int | 0 <= s <= 59

  datatype DateTime = DateTime(year: Year, month: Month, day: Day, hour: Hour, minute: Minute, second: Second)

  /** Two readings fall within the same clock hour of the same day. */
  predicate SameHour(a: DateTime, b: DateTime) {
    a.year == b.year && a.month == b.month && a.day == b.day && a.hour == b.hour
  }

  /** `strftime('%Y-%m-%dT%H:00')`, which is also the shape of the
      forecast service's hourly timestamps. */
  function HourStamp(t: DateTime): string {
    Pad4(t.year) + "-" + Pad2(t.month) + "-" + Pad2(t.day) + "T" + Pad2(t.hour) + ":00"
  }

  /** The first 13 characters of `HourStamp`: `YYYY-MM-DDTHH`, from which
      year, month, day and hour read back. */
  function HourPrefix(t: DateTime): (p: string)
    ensures |p| == 13
    ensures StartsWith(HourStamp(t), p)
    ensures p[4] == '-' && p[7] == '-' && p[10] == 'T'
    ensures 100 * Field2(p, 0) + Field2(p, 2) == t.year
    ensures Field2(p, 5) == t.month && Field2(p, 8) == t.day && Field2(p, 11) == t.hour
  {
    HourStamp(t)[..13]
  }

  /** `strftime('%Y-%m-%d %H:%M:%S')`, the check time shown in the summary;
      every field reads back from its position. */
  function CheckStamp(t: DateTime): (s: string)
    ensures |s| == 19
    ensures s[4] == '-' && s[7] == '-' && s[10] == ' ' && s[13] == ':' && s[16] == ':'
    ensures 100 * Field2(s, 0) + Field2(s, 2) == t.year
    ensures Field2(s, 5) == t.month && Field2(s, 8) == t.day
    ensures Field2(s, 11) == t.hour && Field2(s, 14) == t.minute && Field2(s, 17) == t.second
  {
    Pad4(t.year) + "-" + Pad2(t.month) + "-" + Pad2(t.day) + " " +
    Pad2(t.hour) + ":" + Pad2(t.minute) + ":" + Pad2(t.second)
  }

  /** Value of the two digits of `s` starting at `i`. */
  function Field2(s: string, i: nat): int
    requires i + 2 <= |s|
  {
    10 * DigitValue(s[i]) + DigitValue(s[i + 1])
  }

  /** The hour prefix identifies the hour exactly: two readings give the same
      prefix if and only if they fall within the same hour. */
  lemma HourPrefixIdentifiesHour(a: DateTime, b: DateTime)
    ensures HourPrefix(a) == HourPrefix(b) <==> SameHour(a, b)
  {
  }

  /** A forecast timestamp for hour `u` starts with the prefix of reading `t`
      if and only if `u` and `t` are the same hour. */
  lemma StampMatchesPrefix(u: DateTime, t: DateTime)
    ensures StartsWith(HourStamp(u), HourPrefix(t)) <==> SameHour(u, t)
  {
    HourPrefixIdentifiesHour(u, t);
    assert HourStamp(u)[..13] == HourPrefix(u);
  }
}

=== FILE: forecast.dfy ===
/** The forecast client: request target selection and the shape check on the
    decoded response. The HTTP exchange itself is a parameter. */
module Forecast {
  import opened Wrappers
  import opened Cities

  /** The `hourly` object of the response; each array may be absent. */
  datatype Hourly = Hourly(
    time: Option<seq<string>>,
    probability: Option<seq<int>>,
    precipitation: Option<seq<real>>)

  /** The decoded response body; `hourly` may be absent. */
  datatype Response = Response(hourly: Option<Hourly>)

  datatype FetchError =
    | Transport(detail: string)   // timeout, connection failure, non-success status
    | InvalidFormat               // no `hourly` object
    | MissingProbability          // no `precipitation_probability` array

  /** What the shape check accepts: `hourly` present with
      `precipitation_probability` inside it. Neither `time` nor
      `precipitation` is looked at. */
  predicate HasProbabilities(data: Response) {
    data.hourly.Some? && data.hourly.value.probability.Some?
  }

  /** Shape check of a decoded response, in the order the script checks the fields. */
  function Validate(data: Response): (r: Result<Response, FetchError>)
    ensures r.Success? <==> HasProbabilities(data)
    ensures r.Success? ==> r.value == data
    ensures data.hourly.None? ==> r == Failure(InvalidFormat)
    ensures data.hourly.Some? && !HasProbabilities(data) ==> r == Failure(MissingProbability)
  {
    if data.hourly.None? then Failure(InvalidFormat)
    else if data.hourly.value.probability.None? then Failure(MissingProbability)
    else Success(data)
  }

  /** The URL requested for a city key. */
  function RequestUrl(key: string): string {
    Table[ResolveCity(key)].url
  }

  /** One fetch: ask `get` for the resolved city's URL; a transport failure
      (its message) becomes `Transport`, a reply is validated. */
  function Fetch(key: string, get: string -> Result<Response, string>): (r: Result<Response, FetchError>)
    ensures r.Success? <==> get(RequestUrl(key)).Success? && HasProbabilities(get(RequestUrl(key)).value)
    ensures r.Success? ==> r.value == get(RequestUrl(key)).value
    ensures get(RequestUrl(key)).Failure? <==> r.Failure? && r.error.Transport?
    ensures get(RequestUrl(key)).Failure? ==> r.error == Transport(get(RequestUrl(key)).error)
    ensures r == Failure(InvalidFormat) <==>
      get(RequestUrl(key)).Success? && get(RequestUrl(key)).value.hourly.None?
    ensures r == Failure(MissingProbability) <==>
      get(RequestUrl(key)).Success? && get(RequestUrl(key)).value.hourly.Some? &&
      !HasProbabilities(get(RequestUrl(key)).value)
  {
    match get(RequestUrl(key))
    case Failure(msg) => Failure(Transport(msg))
    case Success(data) => Validate(data)
  }

  /** An unknown key is fetched exactly as the default city is. */
  lemma UnknownKeyFetchesDefault(key: string, get: string -> Result<Response, string>)
    requires key !in Table
    ensures Fetch(key, get) == Fetch(DefaultCity, get)
  {
  }
}

=== FILE: hour_index.dfy ===
/** Locating the current hour in the forecast's hourly timestamps. */
module HourIndex {
  import opened Wrappers
  import opened Text
  import opened Clock
  import opened Forecast

  /** First position at or after `i` whose timestamp starts with `prefix`. */
  function FirstMatchFrom(times: seq<string>, prefix: string, i: nat): (r: Option<nat>)
    requires i <= |times|
    decreases |times| - i
    ensures r.Some? ==> i <= r.value < |times| && StartsWith(times[r.value], prefix)
    ensures r.Some? ==> forall j :: i <= j < r.value ==> !StartsWith(times[j], prefix)
    ensures r.None? <==> forall j :: i <= j < |times| ==> !StartsWith(times[j], prefix)
  {
    if i == |times| then None
    else if StartsWith(times[i], prefix) then Some(i)
    else FirstMatchFrom(times, prefix, i + 1)
  }

  /** Index of the current hour: the first timestamp that starts with the
      `YYYY-MM-DDTHH` prefix of `now`; failing that, the hour of day, which
      nothing clamps to the series length; and 0 when the timestamp array
      cannot be read at all. */
  function CurrentHourIndex(data: Response, now: DateTime): (r: nat)
    ensures data.hourly.None? || data.hourly.value.time.None? ==> r == 0
    ensures data.hourly.Some? && data.hourly.value.time.Some? ==>
      var times := data.hourly.value.time.value;
      var prefix := HourPrefix(now);
      || (&& r < |times| && StartsWith(times[r], prefix)
          && forall j :: 0 <= j < r ==> !StartsWith(times[j], prefix))
      || (&& r == now.hour
          && forall j :: 0 <= j < |times| ==> !StartsWith(times[j], prefix))
  {
    match data.hourly
    case None => 0
    case Some(h) =>
      match h.time
      case None => 0
      case Some(times) =>
        match FirstMatchFrom(times, HourPrefix(now), 0)
        case Some(i) => i
        case None => now.hour
  }

  /** For a series whose timestamps are the hour stamps of `hours`, the index
      is the first entry within the same hour as `now`, or the hour of day
      when no entry is. */
  lemma IndexOfStampedSeries(hours: seq<DateTime>, now: DateTime)
    ensures var data := Response(Some(Hourly(Some(seq(|hours|, k requires 0 <= k < |hours| => HourStamp(hours[k]))), None, None)));
      var r := CurrentHourIndex(data, now);
      || (r < |hours| && SameHour(hours[r], now) && forall j :: 0 <= j < r ==> !SameHour(hours[j], now))
      || (r == now.hour && forall j :: 0 <= j < |hours| ==> !SameHour(hours[j], now))
  {
    var times := seq(|hours|, k requires 0 <= k < |hours| => HourStamp(hours[k]));
    forall j | 0 <= j < |hours|
      ensures StartsWith(times[j], HourPrefix(now)) <==> SameHour(hours[j], now)
    {
      StampMatchesPrefix(hours[j], now);
    }
  }
}

=== FILE: monitor.dfy ===
/** The orchestrator: fetch, analyze, and send a message only when the
    analysis succeeded and raised the alert. */
module Monitor {
  import opened Wrappers
  import opened Text
  import opened Clock
  import opened Cities
  import opened Forecast
  import opened HourIndex
  import opened Analysis
  import opened Notify

  /** How one run ends. `FetchFailed` carries the last attempt's error,
      which escapes the run wrapped in the retry library's `RetryError` and
      gives a non-zero exit; the other three complete normally. */
  datatype Outcome =
    | FetchFailed(error: FetchError)
    | AnalysisFailed
    | NoAlert(summary: Summary)
    | Sent(summary: Summary, email: Email)

  /** What the run does with the analyzer's result. */
  function Decide(analysis: Option<Summary>, settings: Settings): (o: Outcome)
    ensures o.AnalysisFailed? <==> analysis.None?
    ensures o.Sent? <==> analysis.Some? && analysis.value.alertTriggered
    ensures o.NoAlert? <==> analysis.Some? && !analysis.value.alertTriggered
    ensures o.NoAlert? || o.Sent? ==> o.summary == analysis.value
    ensures o.Sent? ==> o.email == Compose(analysis.value, settings)
  {
    match analysis
    case None => AnalysisFailed
    case Some(a) => if a.alertTriggered then Sent(a, Compose(a, settings)) else NoAlert(a)
  }

  /** One run for the configured city. `get` answers the forecast request;
      `now` and `checkNow` are the two clock readings the analyzer takes. */
  function Run(settings: Settings, get: string -> Result<Response, string>, now: DateTime, checkNow: DateTime): (o: Outcome)
    ensures o.FetchFailed? <==> Fetch(settings.city, get).Failure?
    ensures o.FetchFailed? ==> o.error == Fetch(settings.city, get).error
    ensures var f := Fetch(settings.city, get);
      o.AnalysisFailed? <==>
        f.Success? &&
        (ExtractSeries(f.value).None? || !Readable(ExtractSeries(f.value).value, CurrentHourIndex(f.value, now)))
    ensures var f := Fetch(settings.city, get);
      o.Sent? <==>
        && f.Success?
        && ExtractSeries(f.value).Some?
        && Readable(ExtractSeries(f.value).value, CurrentHourIndex(f.value, now))
        && AlertRule(Window(ExtractSeries(f.value).value, CurrentHourIndex(f.value, now)), settings)
    ensures o.Sent? || o.NoAlert? ==>
      o.summary == AnalyzeRainProbability(Fetch(settings.city, get).value, settings.city, now, checkNow, settings).value
    ensures o.Sent? ==> o.email == Compose(o.summary, settings)
  {
    match Fetch(settings.city, get)
    case Failure(e) => FetchFailed(e)
    case Success(data) => Decide(AnalyzeRainProbability(data, settings.city, now, checkNow, settings), settings)
  }

  /** A message goes out only after a successful fetch of the resolved city,
      for a window of at least one hour in which some hour reached the
      threshold or testing mode is on. */
  lemma SentOnlyWithCause(settings: Settings, get: string -> Result<Response, string>, now: DateTime, checkNow: DateTime)
    ensures Run(settings, get, now, checkNow).Sent? ==>
      get(Table[ResolveCity(settings.city)].url).Success?
    ensures Run(settings, get, now, checkNow).Sent? ==>
      var a := Run(settings, get, now, checkNow).summary;
      |a.hours| > 0 &&
      ((exists k :: 0 <= k < |a.hours| && a.hours[k].probability >= settings.threshold) || settings.testingMode)
  {
  }

  /** With the shipped settings (threshold 50, testing mode off) every message
      is a rain alert about an hour of at least 50 percent. */
  lemma DefaultsAlertAtFiftyPercent(get: string -> Result<Response, string>, now: DateTime, checkNow: DateTime)
    ensures var o := Run(Defaults, get, now, checkNow);
      o.Sent? ==>
      && o.email.variant == RainAlert
      && o.summary.maxProbability >= 50
      && exists k :: 0 <= k < |o.summary.hours| && o.summary.hours[k].probability >= 50
  {
    var o := Run(Defaults, get, now, checkNow);
    if o.Sent? {
      VariantMatchesCause(o.summary, Defaults);
    }
  }

  /** The shape check does not look at `precipitation`: a reply without it
      passes the fetch but its analysis fails, so nothing is sent. */
  lemma MissingPrecipitationStopsRun(data: Response, settings: Settings, get: string -> Result<Response, string>, now: DateTime, checkNow: DateTime)
    requires get(RequestUrl(settings.city)) == Success(data)
    requires HasProbabilities(data) && data.hourly.value.precipitation.None?
    ensures Fetch(settings.city, get) == Success(data)
    ensures Run(settings, get, now, checkNow) == AnalysisFailed
  {
  }

  /** Worked run: the current hour is the last of 24 entries, so the window
      holds that one entry; at 60 percent it raises a rain alert. */
  lemma LastHourOfSeriesAlerts(now: DateTime, checkNow: DateTime, times: seq<string>)
    requires |times| == 24
    requires StartsWith(times[23], HourPrefix(now))
    requires forall j :: 0 <= j < 23 ==> !StartsWith(times[j], HourPrefix(now))
    ensures var data := Response(Some(Hourly(Some(times), Some(seq(24, k => if k == 23 then 60 else 10)), Some(seq(24, k => 0.5)))));
      var o := Run(Defaults, (url: string) => Success(data), now, checkNow);
      && o.Sent?
      && o.summary.hours == [HourRecord(times[23], 60, 0.5)]
      && o.summary.maxProbability == 60
      && o.summary.totalPrecipitation == 0.5
      && o.email.variant == RainAlert
  {
    var probs := seq(24, k => if k == 23 then 60 else 10);
    var precs := seq(24, k => 0.5);
    var data := Response(Some(Hourly(Some(times), Some(probs), Some(precs))));
    assert CurrentHourIndex(data, now) == 23;
    var s := Series(times, probs, precs);
    assert WindowSize(24, 23) == 1;
    assert Window(s, 23) == [HourRecord(times[23], 60, 0.5)];
    var w := Window(s, 23);
    assert w[..0] == [];
    assert MaxProbability(w) == 60;
    assert TotalPrecipitation(w) == 0.5;
    assert AnyAtLeast(w, 50);
  }
}

=== FILE: notify.dfy ===
/** The alert notifier: which message to write and what goes in it. The
    mail session and delivery are not modelled. */
module Notify {
  import opened Wrappers
  import opened Text
  import opened Cities
  import opened Analysis

  /** A test notice (mail forced by testing mode while the maximum is below
      the threshold) or a genuine rain alert. */
  datatype Variant = TestNotice | RainAlert

  /** The message handed to the mail service. The body is kept as its
      parts: the per-hour lines come from `hours`, the summary block from
      the numeric fields; rendering each hour as `%I:%M %p` is left out. */
  datatype Email = Email(
    variant: Variant,
    subject: string,
    heading: string,
    checkTime: string,
    hours: seq<HourRecord>,
    maxProbability: int,
    totalPrecipitation: real,
    threshold: int,
    testingMode: bool,
    reason: string)

  function ChooseVariant(a: Summary, settings: Settings): Variant {
    if settings.testingMode && a.maxProbability < settings.threshold then TestNotice else RainAlert
  }

  const TestTag: string := "[TEST]"

  const ProbabilityTail: string := "% Probability"

  /** The subject line: tagged `[TEST]` exactly for a test notice, naming
      the city, and ending with the rendered maximum probability. */
  function Subject(variant: Variant, city: string, maxProbability: int): (subject: string)
    ensures StartsWith(subject, TestTag) <==> variant == TestNotice
    ensures Contains(subject, city)
    ensures EndsWith(subject, " for " + city + " - " + IntToString(maxProbability) + ProbabilityTail)
  {
    var pre := if variant == TestNotice then TestTag + " Rain Monitor" else "Rain Alert";
    var d := IntToString(maxProbability);
    var tail := " for " + city + " - " + d + ProbabilityTail;
    ConcatParts(" for ", city, " - ", d + ProbabilityTail);
    assert tail == " for " + city + " - " + (d + ProbabilityTail);
    ContainsExtendLeft(pre, tail, city);
    EndsWithConcat(pre, tail);
    var subject := pre + tail;
    assert subject[..|pre|] == pre;
    assert variant == TestNotice ==> pre[..|TestTag|] == TestTag;
    assert variant == RainAlert ==> subject[0] == 'R';
    subject
  }

  /** The maximum reads back from the subject: the characters between the
      last " - " and the closing "% Probability" parse as exactly that
      number. */
  lemma SubjectShowsMaximum(variant: Variant, city: string, maxProbability: int)
    ensures var s := Subject(variant, city, maxProbability);
      var d := IntToString(maxProbability);
      var k := |s| - |ProbabilityTail|;
      && |d| + |ProbabilityTail| + 3 <= |s|
      && s[k - |d| - 3..k - |d|] == " - "
      && s[k..] == ProbabilityTail
      && ParseInt(s[k - |d|..k]) == Some(maxProbability)
  {
    var s := Subject(variant, city, maxProbability);
    EndsWithParts(s, " for " + city, " - ", IntToString(maxProbability), ProbabilityTail);
    IntToStringRoundTrip(maxProbability);
  }

  /** The first line of the body: which kind of message, and the city. */
  function Heading(variant: Variant, city: string): (heading: string)
    ensures variant == TestNotice ==> StartsWith(heading, "Rain Monitor Test")
    ensures variant == RainAlert ==> StartsWith(heading, "Rain Alert")
    ensures Contains(heading, city)
  {
    if variant == TestNotice then
      var heading := "Rain Monitor Test - " + city;
      ContainsMiddle("Rain Monitor Test - ", city, "");
      assert heading == "Rain Monitor Test - " + city + "";
      assert heading == "Rain Monitor Test" + (" - " + city);
      heading
    else
      var heading := "Rain Alert - " + city;
      ContainsMiddle("Rain Alert - ", city, "");
      assert heading == "Rain Alert - " + city + "";
      assert heading == "Rain Alert" + (" - " + city);
      heading
  }

  const TestReason: string := "This is a TEST EMAIL to verify email delivery is working."

  /** The closing sentence: the fixed test text, or the alert reason naming
      the threshold. */
  function Reason(variant: Variant, threshold: int): (reason: string)
    ensures variant == TestNotice ==> reason == TestReason
    ensures variant == RainAlert ==> Contains(reason, " is " + IntToString(threshold) + "% or greater")
  {
    if variant == TestNotice then TestReason
    else
      var t := " is " + IntToString(threshold) + "% or greater";
      var reason := "This alert was triggered because rain probability" + t + " within the next 3 hours.";
      ContainsMiddle("This alert was triggered because rain probability", t, " within the next 3 hours.");
      reason
  }

  /** Builds the message for a summary. */
  function Compose(a: Summary, settings: Settings): (e: Email)
    ensures e.variant == TestNotice <==> settings.testingMode && a.maxProbability < settings.threshold
    ensures StartsWith(e.subject, TestTag) <==> e.variant == TestNotice
    ensures Contains(e.subject, a.city)
    ensures EndsWith(e.subject, " for " + a.city + " - " + IntToString(a.maxProbability) + ProbabilityTail)
    ensures Contains(e.heading, a.city)
    ensures e.variant == TestNotice ==> StartsWith(e.heading, "Rain Monitor Test")
    ensures e.variant == RainAlert ==> StartsWith(e.heading, "Rain Alert")
    ensures e.variant == TestNotice ==> e.reason == TestReason
    ensures e.variant == RainAlert ==> Contains(e.reason, " is " + IntToString(settings.threshold) + "% or greater")
    ensures e.checkTime == a.checkTime && e.hours == a.hours
    ensures e.maxProbability == a.maxProbability && e.totalPrecipitation == a.totalPrecipitation
    ensures e.threshold == settings.threshold && e.testingMode == settings.testingMode
  {
    var variant := ChooseVariant(a, settings);
    Email(variant, Subject(variant, a.city, a.maxProbability), Heading(variant, a.city), a.checkTime,
          a.hours, a.maxProbability, a.totalPrecipitation, settings.threshold, settings.testingMode,
          Reason(variant, settings.threshold))
  }

  /** For a summary whose alert was raised, the message never misleads: a
      rain alert is sent only when the maximum reached the threshold, so its
      stated reason holds; a test notice only when testing mode is on and
      every hour stayed below the threshold. */
  lemma VariantMatchesCause(a: Summary, settings: Settings)
    requires a.alertTriggered == AlertRule(a.hours, settings)
    requires a.maxProbability == MaxProbability(a.hours)
    requires a.alertTriggered
    ensures Compose(a, settings).variant == RainAlert ==> a.maxProbability >= settings.threshold
    ensures Compose(a, settings).variant == TestNotice ==>
      settings.testingMode && forall k :: 0 <= k < |a.hours| ==> a.hours[k].probability < settings.threshold
  {
  }
}

=== FILE: text.dfy ===
/** String helpers: prefix tests, the decimal rendering Python's f-strings
    give an `int`, and zero-padded fields as `strftime` writes them. */
module Text {
  import opened Wrappers

  predicate StartsWith(s: string, prefix: string) {
    |prefix| <= |s| && s[..|prefix|] == prefix
  }

  predicate EndsWith(s: string, suffix: string) {
    |suffix| <= |s| && s[|s| - |suffix|..] == suffix
  }

  /** `part` occurs somewhere inside `s`. */
  predicate Contains(s: string, part: string) {
    exists i :: 0 <= i <= |s| && StartsWith(s[i..], part)
  }

  lemma ContainsMiddle(a: string, part: string, b: string)
    ensures Contains(a + part + b, part)
  {
    var s := a + part + b;
    assert s[|a|..] == part + b;
    assert StartsWith(s[|a|..], part);
  }

  /** The parts of a four-part concatenation: it starts with the first and
      contains the second and the fourth. */
  lemma ConcatParts(a: string, b: string, c: string, d: string)
    ensures StartsWith(a + b + c + d, a)
    ensures Contains(a + b + c + d, b)
    ensures Contains(a + b + c + d, d)
  {
    var s := a + b + c + d;
    assert s[..|a|] == a;
    assert s[|a|..] == b + c + d;
    assert StartsWith(s[|a|..], b);
    assert s[|a| + |b| + |c|..] == d;
    assert StartsWith(s[|a| + |b| + |c|..], d);
  }

  lemma EndsWithConcat(pre: string, tail: string)
    ensures EndsWith(pre + tail, tail)
  {
    assert (pre + tail)[|pre|..] == tail;
  }

  /** The last three parts of a suffix sit at fixed distances from the end. */
  lemma EndsWithParts(s: string, x: string, sep: string, d: string, tail: string)
    requires EndsWith(s, x + sep + d + tail)
    ensures |x| + |sep| + |d| + |tail| <= |s|
    ensures var k := |s| - |tail|;
      && s[k..] == tail
      && s[k - |d|..k] == d
      && s[k - |d| - |sep|..k - |d|] == sep
  {
    var e := x + sep + d + tail;
    var b := |s| - |e|;
    var k := |s| - |tail|;
    assert s[b..] == e;
    assert s[k..] == e[|x| + |sep| + |d|..];
    assert s[k - |d|..k] == e[|x| + |sep|..|x| + |sep| + |d|];
    assert s[k - |d| - |sep|..k - |d|] == e[|x|..|x| + |sep|];
  }

  /** Putting text in front keeps every part that occurs inside. */
  lemma ContainsExtendLeft(pre: string, s: string, part: string)
    requires Contains(s, part)
    ensures Contains(pre + s, part)
  {
    var i :| 0 <= i <= |s| && StartsWith(s[i..], part);
    assert (pre + s)[|pre| + i..] == s[i..];
  }

  predicate IsDigit(c: char) {
    '0' <= c <= '9'
  }

  function DigitChar(d: int): (c: char)
    requires 0 <= d < 10
    ensures IsDigit(c)
    ensures DigitValue(c) == d
  {
    ('0' as int + d) as char
  }

  function DigitValue(c: char): (v: int)
    ensures IsDigit(c) ==> 0 <= v < 10
  {
    c as int - '0' as int
  }

  /** Decimal digits of `n`, most significant first, no leading zeros. */
  function NatToString(n: nat): (s: string)
    ensures |s| > 0
    ensures forall i :: 0 <= i < |s| ==> IsDigit(s[i])
  {
    if n < 10 then [DigitChar(n)] else NatToString(n / 10) + [DigitChar(n % 10)]
  }

  /** Python's `str(n)` for an `int`: a minus sign, then the digits of |n|. */
  function IntToString(n: int): string {
    if n < 0 then "-" + NatToString(-n) else NatToString(n)
  }

  /** Value of a digit string, read left to right. */
  function DigitsValue(s: string): nat
    requires forall i :: 0 <= i < |s| ==> IsDigit(s[i])
  {
    if |s| == 0 then 0 else 10 * DigitsValue(s[..|s| - 1]) + DigitValue(s[|s| - 1])
  }

  /** Reads back what `IntToString` writes: an optional minus sign and at least one digit. */
  function ParseInt(s: string): Option<int> {
    if |s| > 0 && s[0] == '-' then
      (if |s| > 1 && forall i :: 1 <= i < |s| ==> IsDigit(s[i])
       then Some(0 - DigitsValue(s[1..]) as int) else None)
    else if |s| > 0 && forall i :: 0 <= i < |s| ==> IsDigit(s[i]) then Some(DigitsValue(s))
    else None
  }

  lemma {:induction false} DigitsValueOfNat(n: nat)
    ensures DigitsValue(NatToString(n)) == n
  {
    if n >= 10 {
      DigitsValueOfNat(n / 10);
      var s := NatToString(n);
      assert s[..|s| - 1] == NatToString(n / 10);
    }
  }

  /** The decimal rendering of an integer determines it. */
  lemma IntToStringRoundTrip(n: int)
    ensures ParseInt(IntToString(n)) == Some(n)
  {
    if n < 0 {
      DigitsValueOfNat(-n);
      assert IntToString(n)[1..] == NatToString(-n);
    } else {
      DigitsValueOfNat(n);
    }
  }

  /** Zero-padded two-digit field, as `%m`, `%d`, `%H`, `%M`, `%S` write it. */
  function Pad2(n: int): (s: string)
    requires 0 <= n < 100
    ensures |s| == 2 && IsDigit(s[0]) && IsDigit(s[1])
    ensures 10 * DigitValue(s[0]) + DigitValue(s[1]) == n
  {
    [DigitChar(n / 10), DigitChar(n % 10)]
  }

  /** Zero-padded four-digit field, as `%Y` writes a year from 1000 to 9999. */
  function Pad4(n: int): (s: string)
    requires 0 <= n < 10000
    ensures |s| == 4 && forall i :: 0 <= i < 4 ==> IsDigit(s[i])
    ensures 100 * (10 * DigitValue(s[0]) + DigitValue(s[1])) + (10 * DigitValue(s[2]) + DigitValue(s[3])) == n
  {
    Pad2(n / 100) + Pad2(n % 100)
  }
}

=== FILE: wrappers.dfy ===
/** Failure-carrying values used across the model: `Option` for Python's
    "value or None", `Result` for "value or raised error". */
module Wrappers {

  datatype Option<+T> = None | Some(value: T)

  datatype Result<+R, +E> = Success(value: R) | Failure(error: E)
}
